=== FILE: README.md ===
# functools.total_ordering in mypy, modelled in Dafny

This project models mypy's plugin for classes decorated with
`functools.total_ordering` (`mypy/plugins/functools.py`). Given the class's
method resolution order (MRO), the callback:

1. rejects Python 2 (`python_version < (3,)`) with an error;
2. scans the MRO, closest class first, leaving out the final `object`. For
   each of `__lt__`, `__le__`, `__gt__` and `__ge__`, it records the closest
   declaration. The entry is `_MethodInfo(is_static, CallableType)` when the
   declaration can be analysed and `None` when it cannot;
3. reports "No ordering operation defined ..." when nothing was found;
4. picks the root with `max(..., key=(entry is None, name))`. It returns
   silently when the root's entry is `None`;
5. takes the type of the `other` operand from the root's parameters. The
   return type is `bool` in two cases only: the root's return type equals the
   named type `bool`, or it is an unbound name whose last dotted part is
   `bool`. Every other return type, an alias of `bool` included, gives
   `Any(implementation_artifact)`;
6. adds a one-argument method (`other`, `ARG_POS`) for every operator the
   class does not yet have.

The callback's side effects are modelled as a value. `ctx.api.fail` and
`add_method_to_class` are gathered into
`Outcome = Fail(message) | NoOp | Added(set of SynthesizedMethod)`.

Modules, one per concern:

- `Optional` (optional.dfy): the `None`/value entries.
- `Strings` (strings.dfy): `str.split` and its inverse `join`, the last dotted
  component, and Python's `str` ordering.
- `Types` (types.dfy): argument kinds, `Any` reasons, the type forms the
  plugin inspects, `get_proper_type` as alias expansion, and the named `bool`
  type.
- `Nodes` (nodes.dfy): the four operators, symbol-table nodes, classes,
  `_MethodInfo`, and the classification of a declaration.
- `Scan` (scan.dfy): `_analyze_class`.
- `Root` (root.dfy): the root selection at line 40. It is modelled as written,
  and a lemma proves it equal to an explicit policy.
- `Signature` (signature.dfy): `_find_other_type` and the return-type decision.
- `TotalOrdering` (total_ordering.dfy): the callback and its end-to-end
  properties.

Where the source's comments and its code disagree, the model follows the code:

- The root is chosen by `max` with key `(entry is None, name)`. A `True` key
  outranks `False`, so any unanalysable entry becomes the root, and the callback
  then returns without adding anything (`SilentWhenAnyUnanalysable`,
  `UnanalysableLtSuppressesSynthesis`). The comment at line 39 gives only the
  name priority, and the comment at line 43 speaks of the case where none of
  the methods can be analysed; the code returns as soon as one of them cannot.
- Because of that rule, synthesis runs only when every recorded entry is
  analysable. So the `not comparison_methods.get(op)` test at line 57 reduces
  to "not declared". An unanalysable non-root operator is never re-synthesized.

## Model

| member | source | states |
|---|---|---|
| `Strings.Split` | mypy/plugins/functools.py:52 | `str.split` returns at least one piece, and no piece contains the separator |
| `Strings.JoinSplit` | mypy/plugins/functools.py:52 | joining the pieces of a split with the separator gives back the original name |
| `Strings.SplitJoin` | mypy/plugins/functools.py:52 | splitting a join of separator-free pieces gives the pieces back (the other round trip) |
| `Strings.LastComponentIsLastSegment` | mypy/plugins/functools.py:52 | `split('.')[-1]` is the longest dot-free suffix: the whole name, or the part after the last dot |
| `Strings.LastComponentIsBool` | mypy/plugins/functools.py:51-52 | `name.split('.')[-1] == 'bool'` holds exactly when the name is `bool` or ends in `.bool` |
| `Strings.StrLessIrreflexive` | mypy/plugins/functools.py:40 | no name sorts before itself under `str` ordering |
| `Strings.StrLessTransitive` | mypy/plugins/functools.py:40 | `str` ordering is transitive |
| `Strings.StrLessTotal` | mypy/plugins/functools.py:40 | of two distinct names, one always sorts first |
| `Types.ProperType` | mypy/plugins/functools.py:50 | `get_proper_type` never returns an alias and leaves non-alias types unchanged |
| `Nodes.NameInjective` | mypy/plugins/functools.py:14-19 | the four ordering methods have four distinct names |
| `Nodes.Classify` | mypy/plugins/functools.py:92-103 | a declaration is analysable exactly when it is a `FuncItem` whose type is callable, or a `Var` whose proper type is callable; the static flag comes from `is_static` or `is_staticmethod` respectively, and the signature is that type |
| `Scan.WithoutObject` | mypy/plugins/functools.py:88-89 | `mro[:-1]` keeps every class but the last, in order |
| `Scan.ScanClass` | mypy/plugins/functools.py:90-103 | one class adds an entry for each ordering name it declares that is not yet recorded, and changes no recorded entry |
| `Scan.ScanFrom` | mypy/plugins/functools.py:89 | the loop over the classes never drops an operator already recorded |
| `Scan.ScanFromKeeps` | mypy/plugins/functools.py:89-91 | once an entry is recorded, no later class replaces it |
| `Scan.ScanFromDomain` | mypy/plugins/functools.py:89-91 | an operator has an entry exactly when some scanned class declares it |
| `Scan.ScanFromFirst` | mypy/plugins/functools.py:89-103 | an operator's entry is the classification of its closest declaration |
| `Scan.AnalyzeClass` | mypy/plugins/functools.py:84-105 | `_analyze_class` has an entry exactly for the operators declared in `mro[:-1]`, and each entry classifies the closest declaration |
| `Scan.FirstDeclarerExists` | mypy/plugins/functools.py:89-91 | if any class declares an operator, a closest such class exists |
| `Scan.EntryOrigin` | mypy/plugins/functools.py:87-105 | an operator declared in `mro[:-1]` has an entry, taken from its closest declaring class, which is no further than any declaring class |
| `Scan.SameDeclarationsSameEntry` | mypy/plugins/functools.py:89-103 | an operator's entry depends only on which classes declare it and with what declaration |
| `Scan.LaterClassesNeverReplace` | mypy/plugins/functools.py:89-91 | appending base classes to the scanned chain leaves existing entries unchanged |
| `Scan.ClosestDeclarationWins` | mypy/plugins/functools.py:89-94 | a class that declares an operator itself shadows every base class's declaration |
| `Scan.ObjectNeverConsulted` | mypy/plugins/functools.py:88-89 | the last class of the MRO (`object`) has no influence on the result |
| `Root.Key` | mypy/plugins/functools.py:40 | the key's first part is `True` exactly when the entry is `None`, and no two recorded operators share a key |
| `Root.KeyLessTransitive` | mypy/plugins/functools.py:40 | the `(is None, name)` tuple ordering is transitive |
| `Root.KeyLessTotal` | mypy/plugins/functools.py:40 | distinct keys are always ordered |
| `Root.NotLessTransitive` | mypy/plugins/functools.py:40 | "not below" is transitive on keys |
| `Root.KeysDistinct` | mypy/plugins/functools.py:40 | two operators with mutually unordered keys are the same operator, so `max` has a unique answer |
| `Root.MaxFrom` | mypy/plugins/functools.py:40 | Python's `max` loop returns a visited item whose key no visited item exceeds |
| `Root.SelectRoot` | mypy/plugins/functools.py:40 | the root is a recorded operator whose key `(entry is None, name)` is maximal |
| `Root.RootIndependentOfOrder` | mypy/plugins/functools.py:40 | `max` gives the same root whatever order the keys are visited in |
| `Root.NameOrderIsRank` | mypy/plugins/functools.py:39-40 | `str` ordering of the names is `__ge__` < `__gt__` < `__le__` < `__lt__`, the priority the comment states |
| `Root.Preferred` | mypy/plugins/functools.py:39 | the chosen operator is in the set and has the highest priority there |
| `Root.SelectRootIsPolicy` | mypy/plugins/functools.py:39-44 | the root is the highest-priority unanalysable operator if there is one, else `__lt__`, `__le__`, `__gt__`, `__ge__`, the first present |
| `Root.RootAnalysableIffAllAnalysable` | mypy/plugins/functools.py:40-44 | the root's entry is analysable exactly when every entry is |
| `Signature.Params` | mypy/plugins/functools.py:67 | `zip` pairs kinds with types up to the shorter list |
| `Signature.StopsShift` | mypy/plugins/functools.py:67-76 | dropping the first parameter shifts every later stopping point by one and advances the counter for a positional parameter |
| `Signature.StopIndex` | mypy/plugins/functools.py:67-76 | the loop breaks at the first parameter that is positional at the target position, or of a kind other than positional and `ARG_STAR2`; it runs to the end only if there is no such parameter |
| `Signature.FindOtherType` | mypy/plugins/functools.py:62-81 | the operand type is the type at the first stopping point, or `Any(implementation_artifact)` if there is none; it is always one of the argument types or that `Any` |
| `Signature.StaticOperand` | mypy/plugins/functools.py:64-71 | a static method whose first parameter is positional yields that parameter's type |
| `Signature.InstanceOperand` | mypy/plugins/functools.py:64-73 | an instance method whose first two parameters are positional yields the second one's type, skipping `self` |
| `Signature.KeywordVariadicSkipped` | mypy/plugins/functools.py:68-79 | `**kwargs` neither stops the scan nor counts as positional: an instance `(self, **kw)` or a static `(**kw)` comparison yields `Any(implementation_artifact)`, not the type of `kw` |
| `Signature.OtherKindTakenAtOnce` | mypy/plugins/functools.py:74-76 | a `*args` or keyword-only parameter met first is taken as the operand at once, static or not |
| `Signature.NoOperandIsAny` | mypy/plugins/functools.py:78-79 | an instance method with at most `self` yields `Any(implementation_artifact)` |
| `Signature.ReturnTypeFor` | mypy/plugins/functools.py:47-53 | the return type is `bool` exactly when the root returns the named `bool` type or an unbound name `bool` or `<module>.bool`; otherwise it is `Any(implementation_artifact)` |
| `Signature.AliasOfBoolIsAny` | mypy/plugins/functools.py:49-53 | an alias of `bool` differs from `bool` and is not unbound, so it yields `Any(implementation_artifact)` |
| `TotalOrdering.VersionLess` | mypy/plugins/functools.py:28 | Python's tuple `<` never holds between equal versions |
| `TotalOrdering.VersionLessIsLexicographic` | mypy/plugins/functools.py:28 | tuple `<` holds exactly when the first version is a proper prefix of the second, or is smaller at the first position where they differ |
| `TotalOrdering.Unsupported` | mypy/plugins/functools.py:28 | `python_version < (3,)` holds exactly for an empty version or a major version below 3 |
| `TotalOrdering.MissingOps` | mypy/plugins/functools.py:57 | `not comparison_methods.get(op)` holds exactly for operators with no entry or a `None` entry; when no entry is `None` these are the operators not recorded at all |
| `TotalOrdering.SynthesizeAll` | mypy/plugins/functools.py:54-59 | one method per operator in the set and no other, each with the same `other` type and return type |
| `TotalOrdering.Extrapolate` | mypy/plugins/functools.py:33-59 | given the scan result: the no-ordering error exactly when it is empty; a silent return exactly when some entry is `None`; otherwise one single-argument method for each operator with no entry, at most one per operator |
| `TotalOrdering.Callback` | mypy/plugins/functools.py:25-59 | the callback reports only the two errors; every added method has the single positional argument `other`; no operator is added twice |
| `TotalOrdering.MessagesDiffer` | mypy/plugins/functools.py:29-35 | the version error and the no-ordering error are different messages |
| `TotalOrdering.VersionGate` | mypy/plugins/functools.py:28-30 | the version error is reported, with nothing added, exactly when `python_version < (3,)` |
| `TotalOrdering.EmptyScan` | mypy/plugins/functools.py:32-37 | the no-ordering error is reported exactly when the version is supported and no class in `mro[:-1]` declares an ordering method |
| `TotalOrdering.SilentWhenAnyUnanalysable` | mypy/plugins/functools.py:39-44 | the callback returns silently exactly when the version is supported and some recorded entry is `None` |
| `TotalOrdering.ExtrapolateSynthesizes` | mypy/plugins/functools.py:46-59 | with all entries analysable, the undeclared operators are added, each with the operand and return type of the highest-priority declared operator |
| `TotalOrdering.SynthesizesMissing` | mypy/plugins/functools.py:32-59 | when some class in `mro[:-1]` declares an ordering method and every closest declaration is analysable, exactly the undeclared operators are added; each has the operand and return type of the highest-priority declared operator |
| `TotalOrdering.ClosestDeclarationsAnalysable` | mypy/plugins/functools.py:89-103 | if every closest declaration is analysable, no entry of the scan is `None` |
| `TotalOrdering.NeverOverwrites` | mypy/plugins/functools.py:54-59 | an operator whose closest declaration is analysable is never added, so existing methods are never overwritten |
| `TotalOrdering.CompleteUnchanged` | mypy/plugins/functools.py:54-59 | a scan result with all four operators analysable leads to nothing added and no error |
| `TotalOrdering.CompleteClassUnchanged` | mypy/plugins/functools.py:32-59 | when each of the four operators has a closest declaration in `mro[:-1]` that is analysable, nothing is added and no error is reported |
| `TotalOrdering.SynthesizedNode` | mypy/plugins/functools.py:58-59 | the method left by `add_method_to_class` is an analysable declaration |
| `TotalOrdering.SynthesizedRoundTrip` | mypy/plugins/functools.py:58-59 | an added method, analysed like a declared one, yields the operand type and return type it was built with |
| `TotalOrdering.AddMethods` | mypy/plugins/functools.py:59 | adding the outcome's methods declares every added operator analysably and leaves the other operators' declarations untouched |
| `TotalOrdering.WithAdded` | mypy/plugins/functools.py:59 | adding methods keeps the length of the MRO and leaves every base class as it was |
| `TotalOrdering.AddMethodsNode` | mypy/plugins/functools.py:59 | each added method is bound in the class, under its operator's name, to the node synthesized for it |
| `TotalOrdering.AddedEntryAnalysable` | mypy/plugins/functools.py:89-94 | on the next scan, an added operator's entry is the classification of the node synthesized for it in the class itself, and is analysable |
| `TotalOrdering.OtherEntryKept` | mypy/plugins/functools.py:89-103 | on the next scan, an operator that was not added keeps the entry it had |
| `TotalOrdering.AddedAreMissing` | mypy/plugins/functools.py:39-59 | when methods are added, every entry is analysable and the added operators are exactly those with no entry |
| `TotalOrdering.Idempotent` | mypy/plugins/functools.py:54-59 | running the callback again on the class with its synthesized methods added adds nothing and reports nothing |
| `TotalOrdering.UnanalysableLtSuppressesSynthesis` | mypy/plugins/functools.py:39-44 | a class with an unanalysable `__lt__` and an analysable `__le__` gets nothing: `__lt__` becomes the root |

## Left out

- `feature-test.py`: a small `Enum`/`assert_never` script, unrelated to the plugin.
- The registration set `functools_total_ordering_makers` (lines 10-12) and the unused `auto_attribs_default` parameter (line 26).
- Error locations (`ctx.reason`): an error is modelled by its message alone.
- `ctx.api.named_type('__builtins__.bool')`: modelled as the constant `Instance("builtins.bool", [])`.
- `add_method_to_class` (line 59): its calls are the `Added` set. Its effect on the symbol table is modelled only as far as `Idempotent` needs: the new method is a non-static function with a callable type.
- Computing the MRO: it is an input, a sequence of classes whose last element is `object`.
- Type equality at line 49: structural equality of the `Type` datatype. mypy's own `__eq__` methods are not part of this model.
- `get_proper_type`: modelled as expanding `Alias` nodes. Every other type is returned unchanged.
- Iteration order of `_ORDERING_METHODS` and of the dictionary: the added methods form a set. The scan handles each name independently. `RootIndependentOfOrder` shows that the order does not affect `max`.
- Types other than instances, unbound names, `Any`, callables and aliases: these are collapsed into one `OtherType` form, which the plugin treats like any other non-`bool`, non-callable type.

=== FILE: nodes.dfy ===
/**
 The symbol-table view of a class: the declarations it holds under each name,
 the four ordering operators, and how a declaration is classified as an
 analysable comparison method (`_MethodInfo`) or not.
 */
module Nodes {
  import opened Optional
  import opened Types

  /** The four ordering operators of `_ORDERING_METHODS`. */
  datatype Op = Lt | Le | Gt | Ge

  const AllOps: set<Op> := {Lt, Le, Gt, Ge}

  /** The dunder name under which an operator is declared. */
  function Name(op: Op): (name: string)
    ensures |name| == 6 && name[..2] == "__" && name[4..] == "__"
  {
    match op
    case Lt => "__lt__"
    case Le => "__le__"
    case Gt => "__gt__"
    case Ge => "__ge__"
  }

  lemma AllOpsIsEveryOp(op: Op)
    ensures op in AllOps
  {
  }

  /** Distinct operators are declared under distinct names. */
  lemma NameInjective(a: Op, b: Op)
    ensures Name(a) == Name(b) <==> a == b
  {
  }

  /**
   The node bound to a name in a class's symbol table: a function definition
   (`FuncItem`), a variable (`Var`), or anything else, including a missing node.
   */
  datatype Node =
    | FuncItem(isStatic: bool, funcType: Option<Type>)
    | VarNode(isStaticMethod: bool, varType: Option<Type>)
    | OtherNode

  /** One class of the MRO with its symbol table `names`. */
  datatype ClassInfo = ClassInfo(fullName: string, names: map<string, Node>)

  /** `_MethodInfo`: whether the method is static, and its signature. */
  datatype MethodInfo = MethodInfo(isStatic: bool, sig: CallableType)

  /** The declaration is a function or variable whose type is a callable. */
  predicate Analysable(node: Node)
  {
    match node
    case FuncItem(_, t) => t.Some? && t.value.Callable?
    case VarNode(_, t) => t.Some? && ProperType(t.value).Callable?
    case OtherNode => false
  }

  /** The comparison-method entry recorded for a declaration found under an ordering name. */
  function Classify(node: Node): (r: Option<MethodInfo>)
    ensures r.Some? <==> Analysable(node)
    ensures node.FuncItem? && r.Some? ==>
      r.value.isStatic == node.isStatic && node.funcType == Some(Callable(r.value.sig))
    ensures node.VarNode? && r.Some? ==>
      r.value.isStatic == node.isStaticMethod && ProperType(node.varType.value) == Callable(r.value.sig)
  {
    match node
    case FuncItem(isStatic, t) =>
      if t.Some? && t.value.Callable? then Some(MethodInfo(isStatic, t.value.sig)) else None
    case VarNode(isStaticMethod, t) =>
      if t.Some? && ProperType(t.value).Callable?
      then Some(MethodInfo(isStaticMethod, ProperType(t.value).sig))
      else None
    case OtherNode => None
  }

}

=== FILE: optional.dfy ===
/** The Optional[...] values of the plugin: a dictionary entry that may be None. */
module Optional {

  datatype Option<+T> = None | Some(value: T)

}

=== FILE: root.dfy ===
/**
 The choice of the root method:
 `max(comparison_methods, key=lambda k: (comparison_methods[k] is None, k))`.
 The key is a Python tuple, so an unanalysable entry (`True`) outranks every
 analysable one (`False`), and names break ties by `str` ordering.
 */
module Root {
  import opened Strings
  import opened Nodes
  import opened Scan

  /** The key of an operator: (entry is None, name). No two operators share a key. */
  function Key(m: Methods, op: Op): (k: (bool, string))
    requires op in m
    ensures k.0 <==> m[op].None?
    ensures forall other :: other in m && other != op ==> (m[other].None?, Name(other)) != k
  {
    assert forall other :: other != op ==> Name(other) != Name(op) by {
      forall other | other != op
        ensures Name(other) != Name(op)
      {
        NameInjective(other, op);
      }
    }
    (m[op].None?, Name(op))
  }

  /** Python's `<` on `(bool, str)` tuples, with `False < True`. */
  predicate KeyLess(a: (bool, string), b: (bool, string))
  {
    (!a.0 && b.0) || (a.0 == b.0 && StrLess(a.1, b.1))
  }

  lemma KeyLessTransitive(a: (bool, string), b: (bool, string), c: (bool, string))
    requires KeyLess(a, b) && KeyLess(b, c)
    ensures KeyLess(a, c)
  {
    if a.0 == b.0 && b.0 == c.0 {
      StrLessTransitive(a.1, b.1, c.1);
    }
  }

  lemma KeyLessIrreflexive(a: (bool, string))
    ensures !KeyLess(a, a)
  {
    StrLessIrreflexive(a.1);
  }

  /** Distinct keys are always ordered one way or the other. */
  lemma KeyLessTotal(a: (bool, string), b: (bool, string))
    requires a != b
    ensures KeyLess(a, b) || KeyLess(b, a)
  {
    if a.0 == b.0 {
      StrLessTotal(a.1, b.1);
    }
  }

  /** "Not below" is transitive, since keys are totally ordered. */
  lemma NotLessTransitive(a: (bool, string), b: (bool, string), c: (bool, string))
    requires !KeyLess(a, b) && !KeyLess(b, c)
    ensures !KeyLess(a, c)
  {
    if KeyLess(a, c) && b != c {
      KeyLessTotal(b, c);
      KeyLessTransitive(a, c, b);
    }
  }

  /** Two operators whose keys are unordered either way are the same operator. */
  lemma KeysDistinct(m: Methods, a: Op, b: Op)
    requires a in m && b in m
    requires !KeyLess(Key(m, a), Key(m, b)) && !KeyLess(Key(m, b), Key(m, a))
    ensures a == b
  {
    if a != b {
      NameInjective(a, b);
      StrLessTotal(Name(a), Name(b));
    }
  }

  /**
   `max` over `rest` with `best` as the running maximum: an item replaces the
   maximum only when its key is strictly greater.
   */
  function MaxFrom(m: Methods, best: Op, rest: seq<Op>): (r: Op)
    requires best in m
    requires forall i :: 0 <= i < |rest| ==> rest[i] in m
    ensures r == best || r in rest
    ensures !KeyLess(Key(m, r), Key(m, best))
    ensures forall i :: 0 <= i < |rest| ==> !KeyLess(Key(m, r), Key(m, rest[i]))
    decreases |rest|
  {
    if |rest| == 0 then
      KeyLessIrreflexive(Key(m, best));
      best
    else
      var kb := Key(m, best);
      var k0 := Key(m, rest[0]);
      var next := if KeyLess(kb, k0) then rest[0] else best;
      KeyLessIrreflexive(kb);
      KeyLessIrreflexive(k0);
      assert !KeyLess(Key(m, next), kb) by {
        if KeyLess(kb, k0) && KeyLess(k0, kb) {
          KeyLessTransitive(kb, k0, kb);
        }
      }
      var r := MaxFrom(m, next, rest[1..]);
      NotLessTransitive(Key(m, r), Key(m, next), kb);
      NotLessTransitive(Key(m, r), Key(m, next), k0);
      assert forall i :: 1 <= i < |rest| ==> rest[i] == rest[1..][i - 1];
      r
  }

  /** The keys of `m` as a sequence (the dictionary's iteration order is immaterial). */
  function KeysOf(m: Methods): (ks: seq<Op>)
    ensures |ks| > 0 <==> |m| > 0
    ensures forall op :: op in m <==> op in ks
    ensures forall i :: 0 <= i < |ks| ==> ks[i] in m
  {
    var ks := (if Lt in m then [Lt] else []) + (if Le in m then [Le] else [])
      + (if Gt in m then [Gt] else []) + (if Ge in m then [Ge] else []);
    assert forall op :: op in m <==> op in ks by {
      forall op ensures op in m <==> op in ks {
        AllOpsIsEveryOp(op);
      }
    }
    assert |m| > 0 ==> |ks| > 0 by {
      if |m| > 0 {
        var op :| op in m;
        assert op in ks;
      }
    }
    ks
  }

  /** `max(comparison_methods, key=...)` for a non-empty dictionary. */
  function SelectRoot(m: Methods): (root: Op)
    requires |m| > 0
    ensures root in m
    ensures forall op :: op in m ==> !KeyLess(Key(m, root), Key(m, op))
  {
    var ks := KeysOf(m);
    var root := MaxFrom(m, ks[0], ks[1..]);
    assert forall op :: op in m ==> !KeyLess(Key(m, root), Key(m, op)) by {
      forall op | op in m ensures !KeyLess(Key(m, root), Key(m, op)) {
        var j :| 0 <= j < |ks| && ks[j] == op;
        if j > 0 {
          assert ks[1..][j - 1] == op;
        }
      }
    }
    root
  }

  /** The result of `max` does not depend on the order in which the keys are visited. */
  lemma RootIndependentOfOrder(m: Methods, order: seq<Op>)
    requires |order| > 0
    requires forall op :: op in m <==> op in order
    ensures order[0] in m
    ensures MaxFrom(m, order[0], order[1..]) == SelectRoot(m)
  {
    assert order[0] in order;
    assert forall i :: 0 <= i < |order[1..]| ==> order[1..][i] in order;
    var r := MaxFrom(m, order[0], order[1..]);
    var s := SelectRoot(m);
    assert r in order;
    assert !KeyLess(Key(m, s), Key(m, r));
    assert !KeyLess(Key(m, r), Key(m, s)) by {
      var j :| 0 <= j < |order| && order[j] == s;
      if j > 0 {
        assert order[1..][j - 1] == s;
      }
    }
    KeysDistinct(m, r, s);
  }

  /** The priority the source comments name: `__lt__` > `__le__` > `__gt__` > `__ge__`. */
  function Rank(op: Op): (rank: nat)
    ensures rank <= 3
  {
    match op
    case Lt => 3
    case Le => 2
    case Gt => 1
    case Ge => 0
  }

  /** The `str` ordering of the four names agrees with their priority. */
  lemma NameOrderIsRank(a: Op, b: Op)
    ensures StrLess(Name(a), Name(b)) <==> Rank(a) < Rank(b)
  {
    assert Name(Lt)[..2] == Name(Le)[..2] == Name(Gt)[..2] == Name(Ge)[..2] == "__";
    assert Name(Lt)[2..] == "lt__";
    assert Name(Le)[2..] == "le__";
    assert Name(Gt)[2..] == "gt__";
    assert Name(Ge)[2..] == "ge__";
    StrLessIrreflexive(Name(a));
  }

  /** The highest-priority operator of a non-empty set. */
  function Preferred(s: set<Op>): (op: Op)
    requires s != {}
    ensures op in s
    ensures forall o :: o in s ==> Rank(o) <= Rank(op)
  {
    if Lt in s then Lt else if Le in s then Le else if Gt in s then Gt
    else
      assert forall o :: o in s ==> o == Ge;
      Ge
  }

  /** The operators whose closest declaration cannot be analysed. */
  function Unanalysable(m: Methods): (u: set<Op>)
    ensures forall op :: op in u <==> op in m && m[op].None?
  {
    set op | op in m.Keys && m[op].None?
  }

  /**
   The policy line 40 implements, spelled out: if any entry is unanalysable,
   the highest-priority unanalysable operator; otherwise the highest-priority
   operator present.
   */
  lemma SelectRootIsPolicy(m: Methods)
    requires |m| > 0
    ensures SelectRoot(m) == if Unanalysable(m) != {} then Preferred(Unanalysable(m)) else Preferred(m.Keys)
  {
    var p := if Unanalysable(m) != {} then Preferred(Unanalysable(m)) else Preferred(m.Keys);
    var s := SelectRoot(m);
    assert !KeyLess(Key(m, s), Key(m, p));
    assert !KeyLess(Key(m, p), Key(m, s)) by {
      NameOrderIsRank(p, s);
    }
    KeysDistinct(m, p, s);
  }

  /** The root is analysable exactly when every entry is. */
  lemma RootAnalysableIffAllAnalysable(m: Methods)
    requires |m| > 0
    ensures m[SelectRoot(m)].Some? <==> Unanalysable(m) == {}
  {
  }

}

=== FILE: scan.dfy ===
/**
 `_analyze_class`: walks the MRO, closest class first and `object` excluded, and
 records for each ordering operator the classification of its closest declaration.
 */
module Scan {
  import opened Optional
  import opened Nodes

  /** The dictionary `comparison_methods`, keyed by operator. */
  type Methods = map<Op, Option<MethodInfo>>

  /** `comparison_methods.get(op)`: a missing key reads as None. */
  function Get(m: Methods, op: Op): (r: Option<MethodInfo>)
  {
    if op in m then m[op] else None
  }

  predicate Declares(cls: ClassInfo, op: Op)
  {
    Name(op) in cls.names
  }

  /** Class `i` is the closest one in `classes` that declares `op`. */
  predicate FirstDeclarer(classes: seq<ClassInfo>, op: Op, i: int)
  {
    && 0 <= i < |classes|
    && Declares(classes[i], op)
    && forall j :: 0 <= j < i ==> !Declares(classes[j], op)
  }

  /** `mro[:-1]`: every class but the last, which is always `object`. */
  function WithoutObject(mro: seq<ClassInfo>): (r: seq<ClassInfo>)
    ensures |r| == if |mro| == 0 then 0 else |mro| - 1
    ensures forall i :: 0 <= i < |r| ==> r[i] == mro[i]
  {
    if |mro| == 0 then [] else mro[..|mro| - 1]
  }

  /** The inner loop over `_ORDERING_METHODS` for one class. */
  function ScanClass(acc: Methods, cls: ClassInfo): (r: Methods)
    ensures forall op :: op in r <==> op in acc || Declares(cls, op)
    ensures forall op :: op in acc ==> r[op] == acc[op]
    ensures forall op :: op !in acc && Declares(cls, op) ==> r[op] == Classify(cls.names[Name(op)])
  {
    assert forall op: Op :: op in AllOps by {
      forall op: Op ensures op in AllOps {
        AllOpsIsEveryOp(op);
      }
    }
    map op | op in AllOps && (op in acc || Declares(cls, op)) ::
      if op in acc then acc[op] else Classify(cls.names[Name(op)])
  }

  /** The outer loop over the classes, starting from the entries already in `acc`. */
  function ScanFrom(acc: Methods, classes: seq<ClassInfo>): (r: Methods)
    ensures acc.Keys <= r.Keys
    decreases |classes|
  {
    if |classes| == 0 then acc
    else ScanFrom(ScanClass(acc, classes[0]), classes[1..])
  }

  /** An entry already recorded survives every further class. */
  lemma {:induction false} ScanFromKeeps(acc: Methods, classes: seq<ClassInfo>, op: Op)
    requires op in acc
    ensures op in ScanFrom(acc, classes) && ScanFrom(acc, classes)[op] == acc[op]
    decreases |classes|
  {
    if |classes| > 0 {
      ScanFromKeeps(ScanClass(acc, classes[0]), classes[1..], op);
    }
  }

  /** An operator gets an entry exactly when some class declares it. */
  lemma {:induction false} ScanFromDomain(acc: Methods, classes: seq<ClassInfo>, op: Op)
    ensures op in ScanFrom(acc, classes) <==>
      (op in acc || exists i :: 0 <= i < |classes| && Declares(classes[i], op))
    decreases |classes|
  {
    if |classes| > 0 {
      ScanFromDomain(ScanClass(acc, classes[0]), classes[1..], op);
      if exists i :: 0 <= i < |classes| && Declares(classes[i], op) {
        var i :| 0 <= i < |classes| && Declares(classes[i], op);
        if i > 0 {
          assert Declares(classes[1..][i - 1], op);
        }
      }
      if exists i :: 0 <= i < |classes[1..]| && Declares(classes[1..][i], op) {
        var i :| 0 <= i < |classes[1..]| && Declares(classes[1..][i], op);
        assert Declares(classes[i + 1], op);
      }
    }
  }

  /** The entry of an operator classifies its closest declaration. */
  lemma {:induction false} ScanFromFirst(acc: Methods, classes: seq<ClassInfo>, op: Op, i: int)
    requires op !in acc
    requires FirstDeclarer(classes, op, i)
    ensures op in ScanFrom(acc, classes)
    ensures ScanFrom(acc, classes)[op] == Classify(classes[i].names[Name(op)])
    decreases |classes|
  {
    var next := ScanClass(acc, classes[0]);
    if i == 0 {
      ScanFromKeeps(next, classes[1..], op);
    } else {
      assert FirstDeclarer(classes[1..], op, i - 1) by {
        forall j | 0 <= j < i - 1 ensures !Declares(classes[1..][j], op) {
          assert classes[1..][j] == classes[j + 1];
        }
      }
      ScanFromFirst(next, classes[1..], op, i - 1);
    }
  }

  /** `_analyze_class(ctx)` for a class whose MRO is `mro`. */
  function AnalyzeClass(mro: seq<ClassInfo>): (r: Methods)
    ensures forall op :: op in r <==>
      exists i :: 0 <= i < |mro| - 1 && Declares(mro[i], op)
    ensures forall op, i :: i < |mro| - 1 && FirstDeclarer(mro, op, i) ==>
      r[op] == Classify(mro[i].names[Name(op)])
  {
    var classes := WithoutObject(mro);
    var r := ScanFrom(map[], classes);
    assert forall op :: op in r <==> exists i :: 0 <= i < |mro| - 1 && Declares(mro[i], op) by {
      forall op ensures op in r <==> exists i :: 0 <= i < |mro| - 1 && Declares(mro[i], op) {
        ScanFromDomain(map[], classes, op);
        if exists i :: 0 <= i < |mro| - 1 && Declares(mro[i], op) {
          var i :| 0 <= i < |mro| - 1 && Declares(mro[i], op);
          assert Declares(classes[i], op);
        }
      }
    }
    assert forall op, i :: i < |mro| - 1 && FirstDeclarer(mro, op, i) ==>
      r[op] == Classify(mro[i].names[Name(op)]) by {
      forall op, i | i < |mro| - 1 && FirstDeclarer(mro, op, i)
        ensures r[op] == Classify(mro[i].names[Name(op)])
      {
        assert FirstDeclarer(classes, op, i);
        ScanFromFirst(map[], classes, op, i);
      }
    }
    r
  }

  /** Some class declares `op`, so a closest one does. */
  lemma {:induction false} FirstDeclarerExists(classes: seq<ClassInfo>, op: Op, i: int)
    requires 0 <= i < |classes| && Declares(classes[i], op)
    ensures exists k :: 0 <= k <= i && FirstDeclarer(classes, op, k)
    decreases i
  {
    if exists j :: 0 <= j < i && Declares(classes[j], op) {
      var j :| 0 <= j < i && Declares(classes[j], op);
      FirstDeclarerExists(classes, op, j);
    } else {
      assert FirstDeclarer(classes, op, i);
    }
  }

  /**
   An operator declared somewhere in `mro[:-1]` takes its entry from the
   closest declaring class, which is no further than any declaring class.
   */
  lemma EntryOrigin(mro: seq<ClassInfo>, op: Op, j: int) returns (i: int)
    requires 0 <= j < |mro| - 1 && Declares(mro[j], op)
    ensures 0 <= i <= j && FirstDeclarer(mro, op, i)
    ensures op in AnalyzeClass(mro)
    ensures AnalyzeClass(mro)[op] == Classify(mro[i].names[Name(op)])
  {
    FirstDeclarerExists(mro, op, j);
    i :| 0 <= i <= j && FirstDeclarer(mro, op, i);
  }

  /**
   Two MROs of the same length whose classes agree on whether, and with what,
   they declare `op` give `op` the same entry.
   */
  lemma SameDeclarationsSameEntry(mro: seq<ClassInfo>, mro': seq<ClassInfo>, op: Op, j: int)
    requires |mro'| == |mro|
    requires 0 <= j < |mro| - 1 && Declares(mro[j], op)
    requires forall k :: 0 <= k < |mro| ==>
      (Declares(mro'[k], op) <==> Declares(mro[k], op))
      && (Declares(mro[k], op) ==> mro'[k].names[Name(op)] == mro[k].names[Name(op)])
    ensures op in AnalyzeClass(mro) && op in AnalyzeClass(mro')
    ensures AnalyzeClass(mro')[op] == AnalyzeClass(mro)[op]
  {
    var i := EntryOrigin(mro, op, j);
    assert FirstDeclarer(mro', op, i);
    var i' := EntryOrigin(mro', op, i);
  }

  /** Scanning a concatenation scans the first part, then the second. */
  lemma {:induction false} ScanFromAppend(acc: Methods, front: seq<ClassInfo>, back: seq<ClassInfo>)
    ensures ScanFrom(acc, front + back) == ScanFrom(ScanFrom(acc, front), back)
    decreases |front|
  {
    if |front| > 0 {
      assert (front + back)[1..] == front[1..] + back;
      ScanFromAppend(ScanClass(acc, front[0]), front[1..], back);
    } else {
      assert front + back == back;
    }
  }

  /** Classes further along the MRO never replace an entry that is already fixed. */
  lemma LaterClassesNeverReplace(front: seq<ClassInfo>, back: seq<ClassInfo>, op: Op)
    requires op in ScanFrom(map[], front)
    ensures op in ScanFrom(map[], front + back)
    ensures ScanFrom(map[], front + back)[op] == ScanFrom(map[], front)[op]
  {
    ScanFromAppend(map[], front, back);
    ScanFromKeeps(ScanFrom(map[], front), back, op);
  }

  /** A class that declares an operator itself shadows every base class. */
  lemma ClosestDeclarationWins(cls: ClassInfo, bases: seq<ClassInfo>, op: Op)
    requires |bases| > 0
    requires Declares(cls, op)
    ensures op in AnalyzeClass([cls] + bases)
    ensures AnalyzeClass([cls] + bases)[op] == Classify(cls.names[Name(op)])
  {
    assert FirstDeclarer([cls] + bases, op, 0);
    assert ([cls] + bases)[0] == cls;
  }

  /** The final class of the MRO (`object`) is never consulted. */
  lemma ObjectNeverConsulted(mro: seq<ClassInfo>, o1: ClassInfo, o2: ClassInfo)
    ensures AnalyzeClass(mro + [o1]) == AnalyzeClass(mro + [o2])
  {
    assert WithoutObject(mro + [o1]) == mro == WithoutObject(mro + [o2]);
  }

}

=== FILE: signature.dfy ===
/**
 What the root method's signature gives the synthesized methods: the type of
 the `other` operand (`_find_other_type`) and the return type.
 */
module Signature {
  import opened Optional
  import opened Types
  import opened Strings
  import opened Nodes

  predicate IsPositional(kind: ArgKind)
  {
    kind == ArgPos || kind == ArgOpt
  }

  /** `zip(arg_kinds, arg_types)`: pairs up to the shorter of the two lists. */
  function Params(sig: CallableType): (pairs: seq<(ArgKind, Type)>)
    ensures |pairs| <= |sig.argKinds| && |pairs| <= |sig.argTypes|
    ensures |pairs| == |sig.argKinds| || |pairs| == |sig.argTypes|
    ensures forall i :: 0 <= i < |pairs| ==> pairs[i] == (sig.argKinds[i], sig.argTypes[i])
  {
    var n := if |sig.argKinds| < |sig.argTypes| then |sig.argKinds| else |sig.argTypes|;
    seq(n, i requires 0 <= i < n => (sig.argKinds[i], sig.argTypes[i]))
  }

  /** The number of positional (`ARG_POS` or `ARG_OPT`) parameters in `pairs`. */
  function PositionalCount(pairs: seq<(ArgKind, Type)>): (n: nat)
    ensures n <= |pairs|
  {
    if |pairs| == 0 then 0
    else (if IsPositional(pairs[0].0) then 1 else 0) + PositionalCount(pairs[1..])
  }

  /** The position of the `other` operand: 0 for a static method, 1 past `self` otherwise. */
  function TargetPosition(info: MethodInfo): (target: nat)
    ensures target <= 1
  {
    if info.isStatic then 0 else 1
  }

  /**
   The scan over the parameters stops at `j`, with the positional counter having
   started at `cur`: either `j` is positional and the counter has reached
   `target`, or `j` is neither positional nor `ARG_STAR2`.
   */
  predicate Stops(pairs: seq<(ArgKind, Type)>, j: int, cur: nat, target: nat)
  {
    && 0 <= j < |pairs|
    && if IsPositional(pairs[j].0) then cur + PositionalCount(pairs[..j]) == target
       else pairs[j].0 != ArgStar2
  }

  /** `j` is the first position where the scan stops. */
  predicate FirstStop(pairs: seq<(ArgKind, Type)>, j: int, target: nat)
  {
    Stops(pairs, j, 0, target) && forall i :: 0 <= i < j ==> !Stops(pairs, i, 0, target)
  }

  /** Dropping the first parameter shifts every later stop by one. */
  lemma StopsShift(pairs: seq<(ArgKind, Type)>, j: int, cur: nat, target: nat)
    requires 1 <= j < |pairs|
    ensures Stops(pairs, j, cur, target) <==>
      Stops(pairs[1..], j - 1, if IsPositional(pairs[0].0) then cur + 1 else cur, target)
  {
    assert pairs[..j][1..] == pairs[1..][..j - 1];
    assert pairs[1..][j - 1] == pairs[j];
  }

  /** The loop of `_find_other_type`: the index where it breaks, if it does. */
  function StopIndex(pairs: seq<(ArgKind, Type)>, cur: nat, target: nat): (r: Option<nat>)
    ensures r.Some? ==> Stops(pairs, r.value, cur, target)
    ensures r.Some? ==> forall i :: 0 <= i < r.value ==> !Stops(pairs, i, cur, target)
    ensures r.None? ==> forall i :: 0 <= i < |pairs| ==> !Stops(pairs, i, cur, target)
    decreases |pairs|
  {
    if |pairs| == 0 then None
    else
      var kind := pairs[0].0;
      assert pairs[..0] == [];
      if IsPositional(kind) && cur == target then Some(0)
      else if !IsPositional(kind) && kind != ArgStar2 then Some(0)
      else
        var next := if IsPositional(kind) then cur + 1 else cur;
        var rest := StopIndex(pairs[1..], next, target);
        assert forall i :: 1 <= i < |pairs| ==>
          (Stops(pairs, i, cur, target) <==> Stops(pairs[1..], i - 1, next, target)) by {
          forall i | 1 <= i < |pairs|
            ensures Stops(pairs, i, cur, target) <==> Stops(pairs[1..], i - 1, next, target)
          {
            StopsShift(pairs, i, cur, target);
          }
        }
        match rest
        case None => None
        case Some(j) => Some(j + 1)
  }

  /** `_find_other_type(method)`. */
  function FindOtherType(info: MethodInfo): (r: Type)
    ensures r == ArtifactAny || r in info.sig.argTypes
    ensures (forall j :: 0 <= j < |Params(info.sig)| ==> !Stops(Params(info.sig), j, 0, TargetPosition(info)))
      ==> r == ArtifactAny
    ensures forall j :: FirstStop(Params(info.sig), j, TargetPosition(info)) ==> r == Params(info.sig)[j].1
  {
    var pairs := Params(info.sig);
    var target := TargetPosition(info);
    match StopIndex(pairs, 0, target)
    case Some(j) =>
      assert forall k :: FirstStop(pairs, k, target) ==> k == j by {
        forall k | FirstStop(pairs, k, target) ensures k == j {
          if k < j {
          } else if j < k {
          }
        }
      }
      pairs[j].1
    case None => ArtifactAny
  }

  /** A static `(x: T)` comparison yields `T`. */
  lemma StaticOperand(info: MethodInfo)
    requires info.isStatic
    requires |info.sig.argKinds| >= 1 && |info.sig.argTypes| >= 1
    requires IsPositional(info.sig.argKinds[0])
    ensures FindOtherType(info) == info.sig.argTypes[0]
  {
    assert FirstStop(Params(info.sig), 0, 0);
  }

  /** An instance `(self, other: T)` comparison yields `T`, skipping `self`. */
  lemma InstanceOperand(info: MethodInfo)
    requires !info.isStatic
    requires |info.sig.argKinds| >= 2 && |info.sig.argTypes| >= 2
    requires IsPositional(info.sig.argKinds[0]) && IsPositional(info.sig.argKinds[1])
    ensures FindOtherType(info) == info.sig.argTypes[1]
  {
    var pairs := Params(info.sig);
    assert pairs[..1] == [pairs[0]];
    assert PositionalCount(pairs[..1]) == 1;
    assert FirstStop(pairs, 1, 1);
  }

  /**
   `**kwargs` is skipped without being counted: an instance `(self, **kw)`
   comparison, or a static `(**kw)` one, has no operand and yields
   `Any(implementation_artifact)` rather than the type of `kw`.
   */
  lemma KeywordVariadicSkipped(info: MethodInfo)
    requires info.isStatic ==> info.sig.argKinds == [ArgStar2] && |info.sig.argTypes| == 1
    requires !info.isStatic ==> info.sig.argKinds == [ArgPos, ArgStar2] && |info.sig.argTypes| == 2
    ensures FindOtherType(info) == ArtifactAny
  {
    var pairs := Params(info.sig);
    forall j | 0 <= j < |pairs| ensures !Stops(pairs, j, 0, TargetPosition(info)) {
      if j == 0 {
        assert pairs[..0] == [];
      }
    }
  }

  /**
   A parameter of any other kind (`*args`, keyword-only) met before the target
   position is taken as the operand at once.
   */
  lemma OtherKindTakenAtOnce(info: MethodInfo)
    requires |info.sig.argKinds| >= 1 && |info.sig.argTypes| >= 1
    requires !IsPositional(info.sig.argKinds[0]) && info.sig.argKinds[0] != ArgStar2
    ensures FindOtherType(info) == info.sig.argTypes[0]
  {
    assert FirstStop(Params(info.sig), 0, TargetPosition(info));
  }

  /** With no parameter left to take, the operand is `Any(implementation_artifact)`. */
  lemma NoOperandIsAny(info: MethodInfo)
    requires !info.isStatic
    requires forall i :: 0 <= i < |info.sig.argKinds| ==> info.sig.argKinds[i] == ArgPos
    requires |info.sig.argKinds| <= 1
    ensures FindOtherType(info) == ArtifactAny
  {
    var pairs := Params(info.sig);
    forall j | 0 <= j < |pairs| ensures !Stops(pairs, j, 0, 1) {
      assert j == 0 && pairs[..0] == [];
    }
  }

  /** The root's return type names `bool` when unresolved: `bool` or `<module>.bool`. */
  predicate UnboundBool(t: Type)
  {
    t.Unbound? && (t.name == "bool" || (|t.name| >= 5 && t.name[|t.name| - 5..] == ".bool"))
  }

  /** The return type given to every synthesized method (lines 47-53). */
  function ReturnTypeFor(info: MethodInfo): (r: Type)
    ensures r == BoolType || r == ArtifactAny
    ensures r == BoolType <==> info.sig.retType == BoolType || UnboundBool(ProperType(info.sig.retType))
  {
    if info.sig.retType == BoolType then BoolType
    else
      var proper := ProperType(info.sig.retType);
      if proper.Unbound? && LastComponent(proper.name, '.') == "bool" then
        LastComponentIsBool(proper.name);
        BoolType
      else
        assert proper.Unbound? ==> !UnboundBool(proper) by {
          if proper.Unbound? {
            LastComponentIsBool(proper.name);
          }
        }
        ArtifactAny
  }

  /**
   An alias that expands to `bool` is not equal to `bool` itself and is not an
   unbound name, so it yields `Any(implementation_artifact)`.
   */
  lemma AliasOfBoolIsAny(info: MethodInfo, aliasName: string)
    requires info.sig.retType == Alias(aliasName, BoolType)
    ensures ReturnTypeFor(info) == ArtifactAny
  {
  }

}

=== FILE: strings.dfy ===
/**
 Python string operations the plugin relies on: `str.split` with a one-character
 separator (used as `name.split('.')[-1]`) and the built-in ordering of `str`
 values (used by `max` to rank the ordering method names).
 */
module Strings {

  /** `s.split(sep)`: the maximal pieces of `s` between occurrences of `sep`. */
  function Split(s: string, sep: char): (parts: seq<string>)
    ensures |parts| >= 1
    ensures forall i :: 0 <= i < |parts| ==> sep !in parts[i]
    decreases |s|
  {
    if |s| == 0 then [""]
    else
      var rest := Split(s[1..], sep);
      if s[0] == sep then [""] + rest
      else [[s[0]] + rest[0]] + rest[1..]
  }

  /** `sep.join(parts)`. */
  function Join(parts: seq<string>, sep: char): (s: string)
    requires |parts| >= 1
    ensures parts[0] <= s
    decreases |parts|
  {
    if |parts| == 1 then parts[0] else parts[0] + [sep] + Join(parts[1..], sep)
  }

  /** `s.split(sep)[-1]`: the piece after the last separator. */
  function LastComponent(s: string, sep: char): (last: string)
    ensures sep !in last
  {
    var parts := Split(s, sep);
    parts[|parts| - 1]
  }

  /** Joining the pieces of a split gives back the original string. */
  lemma {:induction false} JoinSplit(s: string, sep: char)
    ensures Join(Split(s, sep), sep) == s
    decreases |s|
  {
    if |s| > 0 {
      var rest := Split(s[1..], sep);
      JoinSplit(s[1..], sep);
      if s[0] == sep {
        assert Split(s, sep) == [""] + rest;
        assert ([""] + rest)[1..] == rest;
      } else {
        var parts := Split(s, sep);
        assert parts == [[s[0]] + rest[0]] + rest[1..];
        if |rest| == 1 {
          assert parts == [[s[0]] + rest[0]];
        } else {
          assert parts[1..] == rest[1..];
          assert Join(rest, sep) == rest[0] + [sep] + Join(rest[1..], sep);
        }
        assert s == [s[0]] + s[1..];
      }
    }
  }

  /** Splitting a separator-free string gives that string alone. */
  lemma {:induction false} SplitNoSeparator(s: string, sep: char)
    requires sep !in s
    ensures Split(s, sep) == [s]
    decreases |s|
  {
    if |s| > 0 {
      assert sep !in s[1..] by {
        forall k | 0 <= k < |s[1..]| ensures s[1..][k] != sep {
          assert s[1..][k] == s[k + 1];
        }
      }
      SplitNoSeparator(s[1..], sep);
      assert s == [s[0]] + s[1..];
    }
  }

  /** A separator-free prefix followed by a separator opens the split. */
  lemma {:induction false} SplitAfterPiece(a: string, sep: char, b: string)
    requires sep !in a
    ensures Split(a + [sep] + b, sep) == [a] + Split(b, sep)
    decreases |a|
  {
    if |a| == 0 {
      assert a + [sep] + b == [sep] + b;
      assert ([sep] + b)[1..] == b;
    } else {
      var s := a + [sep] + b;
      assert sep !in a[1..] by {
        forall k | 0 <= k < |a[1..]| ensures a[1..][k] != sep {
          assert a[1..][k] == a[k + 1];
        }
      }
      SplitAfterPiece(a[1..], sep, b);
      assert s[1..] == a[1..] + [sep] + b;
      assert s[0] == a[0];
      assert [a[0]] + a[1..] == a;
    }
  }

  /** Splitting a join of separator-free pieces gives the pieces back. */
  lemma {:induction false} SplitJoin(parts: seq<string>, sep: char)
    requires |parts| >= 1
    requires forall i :: 0 <= i < |parts| ==> sep !in parts[i]
    ensures Split(Join(parts, sep), sep) == parts
    decreases |parts|
  {
    if |parts| == 1 {
      SplitNoSeparator(parts[0], sep);
    } else {
      SplitJoin(parts[1..], sep);
      SplitAfterPiece(parts[0], sep, Join(parts[1..], sep));
      assert [parts[0]] + parts[1..] == parts;
    }
  }

  /** The last piece of a join is preceded by the join of the others and a separator. */
  lemma {:induction false} JoinLast(parts: seq<string>, sep: char)
    requires |parts| > 1
    ensures Join(parts, sep) == Join(parts[..|parts| - 1], sep) + [sep] + parts[|parts| - 1]
    decreases |parts|
  {
    if |parts| > 2 {
      JoinLast(parts[1..], sep);
      assert parts[1..][..|parts[1..]| - 1] == parts[..|parts| - 1][1..];
    } else {
      assert parts[..|parts| - 1] == [parts[0]];
    }
  }

  /**
   The last component is the longest separator-free suffix: it is a suffix,
   it holds no separator, and it is either the whole string or preceded by a
   separator.
   */
  lemma LastComponentIsLastSegment(s: string, sep: char)
    ensures var l := LastComponent(s, sep);
      && sep !in l
      && |l| <= |s|
      && s[|s| - |l|..] == l
      && (|l| == |s| || s[|s| - |l| - 1] == sep)
  {
    var parts := Split(s, sep);
    var l := parts[|parts| - 1];
    JoinSplit(s, sep);
    if |parts| > 1 {
      JoinLast(parts, sep);
      var front := Join(parts[..|parts| - 1], sep);
      assert s == front + [sep] + l;
      assert s[|s| - |l|..] == l;
      assert s[|s| - |l| - 1] == sep;
    } else {
      assert s == l;
    }
  }

  /**
   `name.split('.')[-1] == 'bool'` holds exactly when the name is `bool` or
   ends with `.bool`.
   */
  lemma LastComponentIsBool(name: string)
    ensures LastComponent(name, '.') == "bool" <==>
      (name == "bool" || (|name| >= 5 && name[|name| - 5..] == ".bool"))
  {
    var l := LastComponent(name, '.');
    LastComponentIsLastSegment(name, '.');
    if name == "bool" {
      SplitNoSeparator(name, '.');
    } else if |name| >= 5 && name[|name| - 5..] == ".bool" {
      var n := |name|;
      assert name[n - 5] == '.';
      assert name[n - 4..] == "bool";
      assert l == name[n - 4..];
    }
  }

  /** Python's ordering of `str` values: code-point lexicographic, a proper prefix first. */
  predicate StrLess(a: string, b: string)
    decreases |a|
  {
    if |a| == 0 then |b| > 0
    else if |b| == 0 then false
    else if a[0] != b[0] then a[0] < b[0]
    else StrLess(a[1..], b[1..])
  }

  lemma {:induction false} StrLessIrreflexive(a: string)
    ensures !StrLess(a, a)
    decreases |a|
  {
    if |a| > 0 {
      StrLessIrreflexive(a[1..]);
    }
  }

  lemma {:induction false} StrLessTransitive(a: string, b: string, c: string)
    requires StrLess(a, b) && StrLess(b, c)
    ensures StrLess(a, c)
    decreases |a|
  {
    if |a| > 0 && |b| > 0 && |c| > 0 && a[0] == b[0] && b[0] == c[0] {
      StrLessTransitive(a[1..], b[1..], c[1..]);
    }
  }

  /** Distinct strings are always ordered one way or the other. */
  lemma {:induction false} StrLessTotal(a: string, b: string)
    requires a != b
    ensures StrLess(a, b) || StrLess(b, a)
    decreases |a|
  {
    if |a| > 0 && |b| > 0 && a[0] == b[0] {
      assert a == [a[0]] + a[1..];
      assert b == [b[0]] + b[1..];
      StrLessTotal(a[1..], b[1..]);
    }
  }

}

=== FILE: total_ordering.dfy ===
/**
 `functools_total_ordering_maker_callback`: the version gate, the scan, the
 choice of the root, and the synthesis of every ordering method the class
 lacks. The plugin API's side effects (reporting an error, adding a method)
 are returned as an `Outcome` instead.
 */
module TotalOrdering {
  import opened Optional
  import opened Types
  import opened Nodes
  import opened Scan
  import opened Root
  import opened Signature

  const UnsupportedMessage: string := "\"functools.total_ordering\" is not supported in Python 2"

  const NoOrderingMessage: string :=
    "No ordering operation defined when using \"functools.total_ordering\": < > <= >="

  /** An `Argument(Var(name, type), type, None, kind)` of a synthesized method. */
  datatype Argument = Argument(varName: string, argType: Type, kind: ArgKind)

  /** One `add_method_to_class(api, cls, name, args, ret_type)` call. */
  datatype SynthesizedMethod = SynthesizedMethod(op: Op, args: seq<Argument>, retType: Type)

  /**
   What one run of the callback does: report one error, return silently, or
   add the given methods to the class.
   */
  datatype Outcome = Fail(message: string) | NoOp | Added(methods: set<SynthesizedMethod>)

  /** Python's `<` on version tuples: lexicographic, a proper prefix first. */
  predicate VersionLess(a: seq<int>, b: seq<int>): (r: bool)
    ensures r ==> a != b
    decreases |a|
  {
    if |a| == 0 then |b| > 0
    else if |b| == 0 then false
    else if a[0] != b[0] then a[0] < b[0]
    else VersionLess(a[1..], b[1..])
  }

  /**
   The same order stated without recursion: `a` is a proper prefix of `b`, or
   the first position where they differ holds a smaller number in `a`.
   */
  lemma {:induction false} VersionLessIsLexicographic(a: seq<int>, b: seq<int>)
    ensures VersionLess(a, b) <==>
      || (|a| < |b| && a == b[..|a|])
      || (exists k :: 0 <= k < |a| && k < |b| && a[..k] == b[..k] && a[k] < b[k])
    decreases |a|
  {
    if |a| == 0 || |b| == 0 {
    } else if a[0] != b[0] {
      if a[0] < b[0] {
        assert a[..0] == b[..0];
      }
    } else {
      VersionLessIsLexicographic(a[1..], b[1..]);
      if |a[1..]| < |b[1..]| && a[1..] == b[1..][..|a[1..]|] {
        assert a == b[..|a|];
      }
      if |a| < |b| && a == b[..|a|] {
        assert a[1..] == b[1..][..|a[1..]|];
      }
      if k :| 0 <= k < |a[1..]| && k < |b[1..]| && a[1..][..k] == b[1..][..k] && a[1..][k] < b[1..][k] {
        assert a[..k + 1] == [a[0]] + a[1..][..k];
        assert b[..k + 1] == [b[0]] + b[1..][..k];
      }
      if k :| 0 <= k < |a| && k < |b| && a[..k] == b[..k] && a[k] < b[k] {
        assert k > 0;
        assert a[1..][..k - 1] == a[1..k];
        assert b[1..][..k - 1] == b[1..k];
        assert a[1..k] == b[1..k];
      }
    }
  }

  /** `python_version < (3,)`. */
  function Unsupported(version: seq<int>): (r: bool)
    ensures r <==> |version| == 0 || version[0] < 3
  {
    assert [3][1..] == [];
    if |version| > 0 && version[0] == 3 then
      assert !VersionLess(version[1..], []);
      VersionLess(version, [3])
    else
      VersionLess(version, [3])
  }

  /** The method added for `op`: one positional argument `other`. */
  function Synthesize(op: Op, other: Type, ret: Type): (meth: SynthesizedMethod)
  {
    SynthesizedMethod(op, [Argument("other", other, ArgPos)], ret)
  }

  /** The operators for which `not comparison_methods.get(op)` holds. */
  function MissingOps(m: Methods): (s: set<Op>)
    ensures forall op :: op in s <==> op !in m || m[op].None?
    ensures (forall op :: op in m ==> m[op].Some?) ==> s == AllOps - m.Keys
  {
    assert forall op: Op :: op in AllOps by {
      forall op: Op ensures op in AllOps {
        AllOpsIsEveryOp(op);
      }
    }
    set op | op in AllOps && Get(m, op).None?
  }

  /** The operators the methods are added under. */
  function AddedOps(methods: set<SynthesizedMethod>): (ops: set<Op>)
    ensures forall meth :: meth in methods ==> meth.op in ops
  {
    set meth | meth in methods :: meth.op
  }

  /** The loop at lines 54-59: one method per operator in `ops`, all with the same types. */
  function SynthesizeAll(ops: set<Op>, other: Type, ret: Type): (r: set<SynthesizedMethod>)
    ensures forall meth :: meth in r ==> meth.op in ops && meth == Synthesize(meth.op, other, ret)
    ensures forall op :: op in ops ==> Synthesize(op, other, ret) in r
    ensures AddedOps(r) == ops
  {
    var r := set op | op in ops :: Synthesize(op, other, ret);
    assert forall op :: op in ops ==> op in AddedOps(r) by {
      forall op | op in ops ensures op in AddedOps(r) {
        assert Synthesize(op, other, ret) in r;
      }
    }
    r
  }

  /** Lines 33-59: what the callback does with the result of the scan. */
  function Extrapolate(m: Methods): (r: Outcome)
    ensures r.Fail? <==> |m| == 0
    ensures r.Fail? ==> r.message == NoOrderingMessage
    ensures r.NoOp? <==> Unanalysable(m) != {}
    ensures r.Added? ==> AddedOps(r.methods) == AllOps - m.Keys
    ensures r.Added? ==> forall meth :: meth in r.methods ==>
      |meth.args| == 1 && meth.args[0].varName == "other" && meth.args[0].kind == ArgPos
    ensures r.Added? ==> forall a, b :: a in r.methods && b in r.methods && a.op == b.op ==> a == b
  {
    if |m| == 0 then
      assert Unanalysable(m) == {};
      Fail(NoOrderingMessage)
    else
      RootAnalysableIffAllAnalysable(m);
      match m[SelectRoot(m)]
      case None => NoOp
      case Some(info) =>
        assert MissingOps(m) == AllOps - m.Keys by {
          forall op ensures op in MissingOps(m) <==> op in AllOps - m.Keys {
            AllOpsIsEveryOp(op);
          }
        }
        Added(SynthesizeAll(MissingOps(m), FindOtherType(info), ReturnTypeFor(info)))
  }

  /** `functools_total_ordering_maker_callback(ctx)` for a class with MRO `mro`. */
  function Callback(version: seq<int>, mro: seq<ClassInfo>): (r: Outcome)
    ensures r.Fail? ==> r.message == UnsupportedMessage || r.message == NoOrderingMessage
    ensures r.Added? ==> forall meth :: meth in r.methods ==>
      |meth.args| == 1 && meth.args[0].varName == "other" && meth.args[0].kind == ArgPos
    ensures r.Added? ==> forall a, b :: a in r.methods && b in r.methods && a.op == b.op ==> a == b
  {
    if Unsupported(version) then Fail(UnsupportedMessage)
    else Extrapolate(AnalyzeClass(mro))
  }

  lemma MessagesDiffer()
    ensures UnsupportedMessage != NoOrderingMessage
  {
    assert |UnsupportedMessage| != |NoOrderingMessage|;
  }

  /** Below Python 3 the callback reports exactly the version error and adds nothing. */
  lemma VersionGate(version: seq<int>, mro: seq<ClassInfo>)
    ensures Callback(version, mro) == Fail(UnsupportedMessage) <==> |version| == 0 || version[0] < 3
  {
    MessagesDiffer();
  }

  /** The "no ordering operation" error is reported exactly when no class but `object` declares one. */
  lemma EmptyScan(version: seq<int>, mro: seq<ClassInfo>)
    ensures Callback(version, mro) == Fail(NoOrderingMessage) <==>
      !Unsupported(version) && forall i, op :: 0 <= i < |mro| - 1 ==> !Declares(mro[i], op)
  {
    MessagesDiffer();
    var m := AnalyzeClass(mro);
    if !Unsupported(version) && |m| > 0 {
      var op :| op in m;
    }
  }

  /**
   The callback returns silently exactly when some operator's closest
   declaration cannot be analysed, even if others can.
   */
  lemma SilentWhenAnyUnanalysable(version: seq<int>, mro: seq<ClassInfo>)
    ensures Callback(version, mro) == NoOp <==>
      !Unsupported(version) && exists op :: op in AnalyzeClass(mro) && AnalyzeClass(mro)[op].None?
  {
    var m := AnalyzeClass(mro);
    if exists op :: op in m && m[op].None? {
      var op :| op in m && m[op].None?;
      assert op in Unanalysable(m);
    }
  }

  /**
   With every recorded entry analysable, the scan result gets one method for
   each operator the class lacks, all with the `other` type and return type of
   the highest-priority present operator.
   */
  lemma ExtrapolateSynthesizes(m: Methods)
    requires |m| > 0
    requires forall op :: op in m ==> m[op].Some?
    ensures var info := m[Preferred(m.Keys)].value;
      && Extrapolate(m).Added?
      && AddedOps(Extrapolate(m).methods) == AllOps - m.Keys
      && forall meth :: meth in Extrapolate(m).methods ==>
           meth == Synthesize(meth.op, FindOtherType(info), ReturnTypeFor(info))
  {
    SelectRootIsPolicy(m);
    assert Unanalysable(m) == {};
  }

  /**
   The same, stated for a class's MRO: when some class in `mro[:-1]` declares an
   ordering method and every closest declaration is analysable.
   */
  lemma SynthesizesMissing(version: seq<int>, mro: seq<ClassInfo>, i0: int, op0: Op)
    requires !Unsupported(version)
    requires 0 <= i0 < |mro| - 1 && Declares(mro[i0], op0)
    requires forall op, i :: 0 <= i < |mro| - 1 && FirstDeclarer(mro, op, i) ==>
      Analysable(mro[i].names[Name(op)])
    ensures |AnalyzeClass(mro)| > 0
    ensures forall op :: op in AnalyzeClass(mro) ==> AnalyzeClass(mro)[op].Some?
    ensures var m := AnalyzeClass(mro);
      var info := m[Preferred(m.Keys)].value;
      && Callback(version, mro).Added?
      && AddedOps(Callback(version, mro).methods) == AllOps - m.Keys
      && forall meth :: meth in Callback(version, mro).methods ==>
           meth == Synthesize(meth.op, FindOtherType(info), ReturnTypeFor(info))
  {
    var m := AnalyzeClass(mro);
    assert op0 in m;
    ClosestDeclarationsAnalysable(mro);
    assert Callback(version, mro) == Extrapolate(m);
    ExtrapolateSynthesizes(m);
  }

  /** If every closest declaration is analysable, so is every entry of the scan. */
  lemma ClosestDeclarationsAnalysable(mro: seq<ClassInfo>)
    requires forall op, i :: 0 <= i < |mro| - 1 && FirstDeclarer(mro, op, i) ==>
      Analysable(mro[i].names[Name(op)])
    ensures forall op :: op in AnalyzeClass(mro) ==> AnalyzeClass(mro)[op].Some?
  {
    forall op | op in AnalyzeClass(mro) ensures AnalyzeClass(mro)[op].Some? {
      var j :| 0 <= j < |mro| - 1 && Declares(mro[j], op);
      var i := EntryOrigin(mro, op, j);
    }
  }

  /**
   An operator whose closest declaration, in class `i`, is analysable is never
   among the added methods.
   */
  lemma NeverOverwrites(version: seq<int>, mro: seq<ClassInfo>, op: Op, i: int)
    requires i < |mro| - 1 && FirstDeclarer(mro, op, i)
    requires Analysable(mro[i].names[Name(op)])
    ensures Callback(version, mro).Added? ==> op !in AddedOps(Callback(version, mro).methods)
  {
    var m := AnalyzeClass(mro);
    assert op in m && m[op].Some?;
  }

  /** A scan result holding all four operators, all analysable, leads to nothing added and no error. */
  lemma CompleteUnchanged(m: Methods)
    requires forall op :: op in m && m[op].Some?
    ensures Extrapolate(m) == Added({})
  {
    assert Lt in m;
    assert Unanalysable(m) == {};
    assert AllOps - m.Keys == {};
  }

  /** A class whose four operators are all declared and analysable gets nothing added and no error. */
  lemma CompleteClassUnchanged(version: seq<int>, mro: seq<ClassInfo>)
    requires !Unsupported(version)
    requires forall op :: exists i :: 0 <= i < |mro| - 1 && FirstDeclarer(mro, op, i) && Analysable(mro[i].names[Name(op)])
    ensures Callback(version, mro) == Added({})
  {
    var m := AnalyzeClass(mro);
    forall op ensures op in m && m[op].Some? {
      var i :| 0 <= i < |mro| - 1 && FirstDeclarer(mro, op, i) && Analysable(mro[i].names[Name(op)]);
      var i' := EntryOrigin(mro, op, i);
      assert i' == i;
    }
    CompleteUnchanged(m);
  }

  /** The node `add_method_to_class` leaves in the class's symbol table. */
  function SynthesizedNode(meth: SynthesizedMethod, selfType: Type): (n: Node)
    ensures Analysable(n)
  {
    FuncItem(false, Some(Callable(CallableType(
      [ArgPos] + seq(|meth.args|, i requires 0 <= i < |meth.args| => meth.args[i].kind),
      [selfType] + seq(|meth.args|, i requires 0 <= i < |meth.args| => meth.args[i].argType),
      meth.retType))))
  }

  /**
   A synthesized method, analysed like a declared one, gives back the operand
   and return types it was built from.
   */
  lemma SynthesizedRoundTrip(op: Op, other: Type, ret: Type, selfType: Type)
    requires ret == BoolType || ret == ArtifactAny
    ensures Classify(SynthesizedNode(Synthesize(op, other, ret), selfType)).Some?
    ensures FindOtherType(Classify(SynthesizedNode(Synthesize(op, other, ret), selfType)).value) == other
    ensures ReturnTypeFor(Classify(SynthesizedNode(Synthesize(op, other, ret), selfType)).value) == ret
  {
    var info := Classify(SynthesizedNode(Synthesize(op, other, ret), selfType)).value;
    assert info.sig.argKinds == [ArgPos, ArgPos];
    assert info.sig.argTypes == [selfType, other];
    InstanceOperand(info);
  }

  /** The symbol-table entries the added methods bring: each under its operator's name. */
  function AddedNodes(methods: set<SynthesizedMethod>, selfType: Type): (added: map<string, Node>)
    requires forall a, b :: a in methods && b in methods && a.op == b.op ==> a == b
    ensures forall meth :: meth in methods ==> Name(meth.op) in added
  {
    map meth | meth in methods :: Name(meth.op) := SynthesizedNode(meth, selfType)
  }

  /** With one method per operator, an operator's name is bound to that method's node. */
  lemma AddedNodeOf(methods: set<SynthesizedMethod>, selfType: Type, meth: SynthesizedMethod)
    requires forall a, b :: a in methods && b in methods && a.op == b.op ==> a == b
    requires meth in methods
    ensures AddedNodes(methods, selfType)[Name(meth.op)] == SynthesizedNode(meth, selfType)
  {
    var added := AddedNodes(methods, selfType);
    var m :| m in methods && Name(m.op) == Name(meth.op) && added[Name(meth.op)] == SynthesizedNode(m, selfType);
    NameInjective(m.op, meth.op);
  }

  /** The class after the outcome's methods have been added to it. */
  function AddMethods(cls: ClassInfo, methods: set<SynthesizedMethod>, selfType: Type): (c: ClassInfo)
    requires forall a, b :: a in methods && b in methods && a.op == b.op ==> a == b
    ensures forall op :: op in AddedOps(methods) ==> Declares(c, op) && Analysable(c.names[Name(op)])
    ensures forall op :: op !in AddedOps(methods) ==>
      (Declares(c, op) <==> Declares(cls, op)) && (Declares(cls, op) ==> c.names[Name(op)] == cls.names[Name(op)])
  {
    var added := AddedNodes(methods, selfType);
    var c := ClassInfo(cls.fullName, cls.names + added);
    assert forall op :: op in AddedOps(methods) ==> Declares(c, op) && Analysable(c.names[Name(op)]) by {
      forall op | op in AddedOps(methods) ensures Declares(c, op) && Analysable(c.names[Name(op)]) {
        var meth :| meth in methods && meth.op == op;
        assert Name(op) in added;
      }
    }
    assert forall op :: op !in AddedOps(methods) ==> Name(op) !in added by {
      forall op | op !in AddedOps(methods) ensures Name(op) !in added {
        if Name(op) in added {
          var meth :| meth in methods && Name(meth.op) == Name(op);
          NameInjective(meth.op, op);
        }
      }
    }
    c
  }

  /** The MRO after the added methods are put into the class itself. */
  function WithAdded(mro: seq<ClassInfo>, methods: set<SynthesizedMethod>, selfType: Type): (r: seq<ClassInfo>)
    requires |mro| > 0
    requires forall a, b :: a in methods && b in methods && a.op == b.op ==> a == b
    ensures |r| == |mro|
    ensures forall k :: 1 <= k < |mro| ==> r[k] == mro[k]
  {
    [AddMethods(mro[0], methods, selfType)] + mro[1..]
  }

  /** Each added method is bound, under its operator's name, to its synthesized node. */
  lemma AddMethodsNode(cls: ClassInfo, methods: set<SynthesizedMethod>, selfType: Type, meth: SynthesizedMethod)
    requires forall a, b :: a in methods && b in methods && a.op == b.op ==> a == b
    requires meth in methods
    ensures Name(meth.op) in AddMethods(cls, methods, selfType).names
    ensures AddMethods(cls, methods, selfType).names[Name(meth.op)] == SynthesizedNode(meth, selfType)
  {
    AddedNodeOf(methods, selfType, meth);
    assert AddMethods(cls, methods, selfType).names == cls.names + AddedNodes(methods, selfType);
  }

  /**
   After adding, an added operator's entry comes from the class itself: it is
   the classification of the node synthesized for it, which is analysable.
   */
  lemma AddedEntryAnalysable(mro: seq<ClassInfo>, methods: set<SynthesizedMethod>, selfType: Type, op: Op)
    requires |mro| > 1
    requires forall a, b :: a in methods && b in methods && a.op == b.op ==> a == b
    requires op in AddedOps(methods)
    ensures op in AnalyzeClass(WithAdded(mro, methods, selfType))
    ensures AnalyzeClass(WithAdded(mro, methods, selfType))[op].Some?
    ensures forall meth :: meth in methods && meth.op == op ==>
      AnalyzeClass(WithAdded(mro, methods, selfType))[op] == Classify(SynthesizedNode(meth, selfType))
  {
    var mro' := WithAdded(mro, methods, selfType);
    var i := EntryOrigin(mro', op, 0);
    forall meth | meth in methods && meth.op == op
      ensures AnalyzeClass(mro')[op] == Classify(SynthesizedNode(meth, selfType))
    {
      AddMethodsNode(mro[0], methods, selfType, meth);
    }
  }

  /** After adding, an operator that was not added keeps its entry. */
  lemma OtherEntryKept(mro: seq<ClassInfo>, methods: set<SynthesizedMethod>, selfType: Type, op: Op, j: int)
    requires forall a, b :: a in methods && b in methods && a.op == b.op ==> a == b
    requires 0 <= j < |mro| - 1 && Declares(mro[j], op)
    requires op !in AddedOps(methods)
    ensures op in AnalyzeClass(WithAdded(mro, methods, selfType))
    ensures AnalyzeClass(WithAdded(mro, methods, selfType))[op] == AnalyzeClass(mro)[op]
  {
    var mro' := WithAdded(mro, methods, selfType);
    assert forall k :: 0 <= k < |mro| ==> (Declares(mro'[k], op) <==> Declares(mro[k], op));
    assert forall k :: 0 <= k < |mro| && Declares(mro[k], op) ==>
      mro'[k].names[Name(op)] == mro[k].names[Name(op)];
    SameDeclarationsSameEntry(mro, mro', op, j);
  }

  /** When the callback adds methods, they are exactly the missing operators and every entry is analysable. */
  lemma AddedAreMissing(version: seq<int>, mro: seq<ClassInfo>)
    requires Callback(version, mro).Added?
    ensures |mro| > 1
    ensures forall op :: op in AnalyzeClass(mro) ==> AnalyzeClass(mro)[op].Some?
    ensures forall op :: op in AddedOps(Callback(version, mro).methods) <==> op !in AnalyzeClass(mro)
  {
    var m := AnalyzeClass(mro);
    assert Unanalysable(m) == {};
    var op0 :| op0 in m;
    forall op ensures op in AllOps {
      AllOpsIsEveryOp(op);
    }
  }

  /**
   Running the callback again on the class with the synthesized methods added
   adds nothing further and reports nothing.
   */
  lemma Idempotent(version: seq<int>, mro: seq<ClassInfo>, selfType: Type)
    requires Callback(version, mro).Added?
    ensures |mro| > 0
    ensures Callback(version, WithAdded(mro, Callback(version, mro).methods, selfType)) == Added({})
  {
    var ms := Callback(version, mro).methods;
    AddedAreMissing(version, mro);
    var mro' := WithAdded(mro, ms, selfType);
    forall op ensures op in AnalyzeClass(mro') && AnalyzeClass(mro')[op].Some? {
      if op in AddedOps(ms) {
        AddedEntryAnalysable(mro, ms, selfType, op);
      } else {
        var j :| 0 <= j < |mro| - 1 && Declares(mro[j], op);
        OtherEntryKept(mro, ms, selfType, op, j);
      }
    }
    CompleteUnchanged(AnalyzeClass(mro'));
  }

  /**
   An analysable `__le__` does not help when `__lt__` cannot be analysed: the
   unanalysable `__lt__` becomes the root and nothing is synthesized.
   */
  lemma UnanalysableLtSuppressesSynthesis(version: seq<int>, sig: CallableType, objectClass: ClassInfo)
    requires !Unsupported(version)
    ensures var cls := ClassInfo("C", map["__lt__" := OtherNode, "__le__" := FuncItem(false, Some(Callable(sig)))]);
      Callback(version, [cls, objectClass]) == NoOp
  {
    var cls := ClassInfo("C", map["__lt__" := OtherNode, "__le__" := FuncItem(false, Some(Callable(sig)))]);
    var mro := [cls, objectClass];
    assert FirstDeclarer(mro, Lt, 0);
    assert Lt in Unanalysable(AnalyzeClass(mro));
  }

}

=== FILE: types.dfy ===
/**
 The slice of mypy's type representation the plugin inspects: argument kinds,
 the reasons an `Any` can carry, and the handful of type forms that matter to
 it (instances, unbound names, `Any`, callables and type aliases).
 */
module Types {

  /** The calling conventions of a parameter (`ARG_POS`, `ARG_OPT`, `ARG_STAR`, ...). */
  datatype ArgKind = ArgPos | ArgOpt | ArgStar | ArgNamed | ArgStar2 | ArgNamedOpt

  /** Why a type is `Any`; the plugin produces only `ImplementationArtifact`. */
  datatype TypeOfAny =
    | Unannotated
    | Explicit
    | FromUnimportedType
    | FromOmittedGenerics
    | FromError
    | SpecialForm
    | FromAnotherAny
    | ImplementationArtifact

  datatype Type =
    | Instance(fullName: string, args: seq<Type>)
    | Unbound(name: string)
    | AnyType(reason: TypeOfAny)
    | Callable(sig: CallableType)
    | Alias(aliasName: string, target: Type)
    | OtherType(description: string)

  /** A signature: parallel lists of argument kinds and types, and a return type. */
  datatype CallableType = CallableType(argKinds: seq<ArgKind>, argTypes: seq<Type>, retType: Type)

  /** What `named_type('__builtins__.bool')` resolves to. */
  const BoolType: Type := Instance("builtins.bool", [])

  /** The marker the plugin uses when it cannot tell a type. */
  const ArtifactAny: Type := AnyType(ImplementationArtifact)

  /** `get_proper_type`: expands type aliases until a non-alias type remains. */
  function ProperType(t: Type): (r: Type)
    ensures !r.Alias?
    ensures !t.Alias? ==> r == t
  {
    match t
    case Alias(_, target) => ProperType(target)
    case _ => t
  }

}
